=== FILE: README.md ===
# Dashboard settings and live-data model

A Dafny model of the controller core of a single-page analytics dashboard
(`DashboardPro` in `script.js`). The controller keeps four user settings
(theme, primary colour, sidebar mode, auto-refresh) in memory, persists them
in the browser's key-value store, and mirrors them onto the page as
attributes and CSS classes. It also runs two simulated feeds: a periodic
perturbation of four KPI counters, and a sliding window of points on a
real-time chart seeded by a clamped random walk.

The model is purely functional:

- `settings.dfy` (module `Settings`): the `Settings` record, the store as
  `map<string, string>`, loading with the `stored || fallback` rule and
  saving with stringified booleans.
- `view.dfy` (module `View`): the part of the page the settings drive. This is the
  root's `data-theme` and `--primary-color`, the theme icon, and the class sets
  of the container and the sidebar. `applySettings` is a function on those sets.
- `dashboard.dfy` (module `Dashboard`): the state (settings, store, page,
  current section) and every user action as a transition: theme toggle and
  theme choice, sidebar and mobile-sidebar toggles, colour swatch, saving
  the settings form, reset, and section switching.
- `realtime.dfy` (module `Realtime`): the KPI tick, the chart window's
  shift-then-push update, and the random walk behind
  `generateRealtimeData`. Each `Math.random()` draw is a parameter of type
  `Draw`, the reals in [0, 1).

Three small functions define the JavaScript built-ins the core relies on:
`Settings.GetItem` is `localStorage.getItem`, `Settings.OrDefault` is `||` on
a possibly missing string, and `Realtime.Shift` is `Array.prototype.shift`
for its effect on the array. Their properties are stated through the members
that use them, `Settings.Load` and `Realtime.Push`.

Behaviour worth knowing, all proved:

- A stored empty string loads as the default, exactly as a missing key does.
  So the save/load round trip is exact precisely for settings whose strings
  are all non-empty.
- Auto-refresh is off only for the stored text `"false"`.
- No setting is validated. An unknown sidebar mode from the store or from the
  form is kept, saved and reloaded unchanged.
- `applySettings` only ever adds classes. Switching to `expanded` through the
  form leaves an earlier `collapsed` class on the sidebar. The page then shows
  the `expanded` mode exactly only if the sidebar carried no mode class before.
- The colour swatch does not save. The stored colour is stale until the next
  action that saves, and a theme toggle is one such action: it saves all four
  settings.
- `toggleSidebar` decides from the sidebar's class, not from the stored mode.
- `Array.prototype.shift` on an empty array does nothing. So a chart tick
  keeps the window's length only when the window is non-empty. Data and labels
  stay the same length in every case.

## Model

| member | source | states |
|---|---|---|
| Settings.Load | script.js:12-17 | Each string setting is the stored value when that is present and non-empty, else its default (`light`, `#667eea`, `expanded`). Auto-refresh is off exactly when the stored text is `"false"`. A loaded string setting is never empty. |
| Settings.BoolText | script.js:62 | A boolean is stored as non-empty text that equals `"false"` exactly when the boolean is false. |
| Settings.Save | script.js:58-63 | All four keys are present afterwards. Every other key keeps its value. Loading gives the saved settings back when their strings are non-empty. |
| Settings.LoadSaveRoundTrip | script.js:58-63 | Saving non-empty settings and then loading them returns the same settings. |
| Settings.LoadSaveExactIff | script.js:12-17 | The save/load round trip is exact if and only if no string setting is empty. An empty one comes back as its default. |
| Settings.SaveLoadedIsStable | script.js:12-17 | Saving freshly loaded settings and loading again changes nothing, whatever the store held. |
| Settings.SaveOverwrites | script.js:58-63 | Saving twice is the same as saving the second settings once. Repeating a save is idempotent. |
| Settings.LoadEmptyIsDefaults | script.js:12-17 | An empty store loads exactly the default settings. |
| Settings.LoadPartialStore | script.js:12-17 | A store with only a dark theme and a collapsed sidebar loads as dark, collapsed, default colour, auto-refresh on. |
| Settings.AutoRefreshLenient | script.js:16 | Any stored auto-refresh text other than `"false"` reads as on. |
| View.ApplySettings | script.js:42-56 | The page afterwards shows the theme, the colour and the class the sidebar mode asks for. Classes are only added: only a mode's own class can appear, and no class is removed. Agreement between the container and the sidebar is kept. |
| View.ApplyIdempotent | script.js:42-56 | Applying the same settings twice leaves the page as one application does. |
| View.ApplyAccumulates | script.js:49-55 | A second application keeps every class the first one added. After collapsed then anything, the sidebar is still collapsed. |
| View.ApplyOnCleanViewShowsExactly | script.js:42-56 | On a sidebar with no mode class, the sidebar afterwards carries exactly the class of its mode. |
| View.ExpandedDoesNotClearCollapsed | script.js:49-55 | Applying `expanded` shows it exactly if and only if the sidebar carried neither mode class before. |
| View.ThemeIcon | script.js:162-167 | The icon is the moon exactly when the theme is light, otherwise the sun. |
| Dashboard.Init | script.js:12-20 | Start-up loads the settings from the store without writing to it, so store and memory are in step. The served page gets `applySettings`: it shows the settings, keeps every class it had (only a mode's class is added), and keeps its active sections. The icon is the moon for `light` and the sun otherwise. The section is `overview`. |
| Dashboard.ApplyTheme | script.js:153-160 | The theme is shown. The icon is the moon for `light` and the sun otherwise. All four settings are saved, so the store matches memory. Classes, colour property and active sections are untouched. |
| Dashboard.ToggleTheme | script.js:148-151 | The new theme is `dark` exactly when the old one was `light`, and `light` otherwise. No other setting changes. All four settings are saved and every other store key is kept. The page changes only in its theme attribute and icon. |
| Dashboard.SelectTheme | script.js:139-142 | Any chosen theme value is kept as the theme. No other setting changes. All four settings are saved and every other store key is kept. The page changes only in its theme attribute and icon, and the current section is unchanged. |
| Dashboard.SelectThemeIdempotent | script.js:139-142 | Choosing the same theme twice gives the same state as choosing it once. |
| Dashboard.ToggleSidebar | script.js:87-101 | The `collapsed` class flips on the sidebar, and the container's `sidebar-collapsed` follows it even on a page where the two disagreed. No other class and no other part of the page changes. The mode becomes `collapsed` exactly when the class is now present, otherwise `expanded`. All settings are saved. |
| Dashboard.ToggleMobileSidebar | script.js:103-114 | The `hidden` class flips on the sidebar, and the container follows it. No other class and no other part of the page changes. Settings, store and section are unchanged. |
| Dashboard.PickColor | script.js:676-684 | The colour setting becomes the picked colour. The page is `applySettings` of the new settings: classes are only added, and icon and active sections are kept. Other settings are unchanged. The store is not written. |
| Dashboard.SaveSettingsFromModal | script.js:709-718 | Theme, mode and auto-refresh come from the form unvalidated, and the in-memory colour is kept. The page is `applySettings` of the result: classes are only added, so an earlier `collapsed` stays, and icon and active sections are kept. The settings are saved, and a reload gives them back when non-empty. |
| Dashboard.ResetSettings | script.js:720-728 | From any state the settings are exactly the defaults, and the store holds `light`, `#667eea`, `expanded`, `"true"`. Other keys keep their values. On the page only the theme attribute and the colour property change: the classes are not cleared and the icon stays as it was. |
| Dashboard.SwitchSection | script.js:116-128 | The current section becomes the target if and only if an element `<id>-section` exists, and is unchanged otherwise. At most that element stays active, and nothing else on the page changes. Settings and store are unchanged. |
| Dashboard.ToggleThemeInvolution | script.js:148-151 | Two theme toggles restore the settings if and only if the theme was `light` or `dark`. Any other theme ends as `dark`. |
| Dashboard.ToggleSidebarTwice | script.js:87-101 | On a page whose container and sidebar agree, two sidebar toggles restore the page exactly. The mode ends matching the original class. |
| Dashboard.ToggleMobileSidebarTwice | script.js:103-114 | On a page whose container and sidebar agree, two mobile toggles restore the whole state. |
| Dashboard.PickedColorPersistedByToggleTheme | script.js:676-684 | After a swatch pick the store still loads the old colour, so the state is out of step exactly when the colour changed. A following theme toggle persists the picked colour. |
| Dashboard.ResetThenReloadIsDefault | script.js:720-731 | The reload after a reset starts from exactly the defaults. On a page served without mode classes it shows them exactly. |
| Dashboard.ModalKeepsUnknownMode | script.js:709-715 | Any non-empty sidebar mode from the form, recognised or not, survives save and reload, whatever the other form values and earlier settings. |
| Dashboard.TransitionsKeepSynced | script.js:58-63 | From a state whose store matches memory, the theme toggle, both sidebar toggles, reset and section switching keep the two in step. |
| Realtime.Abs | script.js:585 | `Math.abs` gives a non-negative result that is the value or its negation. |
| Realtime.Delta | script.js:578-581 | A floored random step `Math.floor(u * width + low)` lies in [low, low + width - 1]. |
| Realtime.DeltaCovers | script.js:578-581 | Every integer in [low, low + width - 1] is the step for some draw, so the range is exactly the one `Math.floor` gives. |
| Realtime.Tick | script.js:576-587 | Every KPI is non-negative afterwards. Each one is the absolute value of its old value plus a step in the source's range (active users [-10,9], sales [0,2], revenue [-500,499], page views [0,49]). Sales and page views never decrease. |
| Realtime.TickCovers | script.js:576-587 | Each KPI moves by the step its own draw gives: for any steps in the four ranges, the matching draws give exactly the absolute value of each old KPI plus its step. |
| Realtime.TickStepBounded | script.js:576-587 | From non-negative KPIs, reflecting at zero never moves a KPI further than its step range allows. |
| Realtime.Ticks | script.js:563-568 | Zero ticks leave the KPIs alone, and after any positive number of ticks every KPI is non-negative. |
| Realtime.TicksMonotone | script.js:563-568 | Over any run of ticks, sales and page views never fall below their start. After at least one tick every KPI is non-negative. |
| Realtime.Push | script.js:601-610 | Data and labels each slide by one: an empty series becomes the new entry alone; a non-empty one keeps its length, loses its oldest entry and ends with the new one. Aligned data and labels stay aligned. |
| Realtime.PushInRange | script.js:601-610 | Pushing a point in [50, 300] onto data in [50, 300] keeps every point in that range. |
| Realtime.ChartPoint | script.js:598-602 | A new chart point lies in [100, 199]. |
| Realtime.ChartPointCovers | script.js:598-602 | Every integer in [100, 199] is the new point for some draw. |
| Realtime.UpdateRealtimeChart | script.js:596-613 | A non-empty window keeps its length. The new data are the old data minus the first point, plus a point in [100,199]. The new labels are the old labels minus the first, plus the current time. An empty window becomes the single new point and label. Data and labels stay the same length. |
| Realtime.UpdateMany | script.js:571-573 | Over any number of chart ticks a non-empty window keeps its length, and data and labels stay the same length. Data within [50,300] stay within it. |
| Realtime.FreshTailGrows | script.js:596-613 | Each tick adds one more point from the [100,199] range at the new end of the window, until the whole window is such points. |
| Realtime.FullTurnoverIsFresh | script.js:596-613 | After at least as many ticks as the window has points, every point lies in [100, 199]. |
| Realtime.Clamp | script.js:554 | The clamped value lies in [50, 300], and a value already in range is unchanged. |
| Realtime.ClampMonotone | script.js:554 | Clamping is monotone. With Clamp's range and identity clauses this fixes the saturation values: above 300 gives 300, below 50 gives 50. |
| Realtime.Step | script.js:553-554 | From a base in [50, 300], one walk step stays in [50, 300] and moves by at least -10 and less than 10. |
| Realtime.StepCovers | script.js:553-554 | Every in-range target within [-10, 10) of the base is the step for the draw (t - base + 10) / 20, so the step follows its draw. |
| Realtime.Walk | script.js:548-559 | The walk has one point per draw. Every point is in [50, 300]. The first point is within 10 of the start, and neighbouring points differ by at most 10. |
| Realtime.WalkFromStart | script.js:548-559 | The walk from 150 lies in [50, 300], opens in [140, 160] and moves by at most 10 between neighbouring points. |
| Realtime.GenerateRealtimeData | script.js:548-559 | The result has `points` values, or none for a non-positive count. It equals the recursive walk from 150 and lies in [50, 300]. It starts in [140, 160] and never jumps by more than 10. |

## Left out

- Chart.js construction, options and redraws (script.js:235-546, `chart.update`, `updateChartsTheme`) are third-party rendering. Only the real-time chart's data and labels are modelled.
- Timers and asynchrony are not modelled: `setInterval`, `setTimeout`, `loadInitialData`, `showLoading`/`hideLoading` and the delayed `location.reload`. The reload after a reset appears only as a fresh `Init` from the reset store.
- `animateCounter`, `updateKPIs` and `updateKPIValues` animate with float increments on a timer and format with `toLocaleString`. They change no model state.
- `formatCurrency`, `formatNumber` and `formatPercent` use `Intl.NumberFormat` and `toFixed` locale formatting.
- Time labels come from `toLocaleTimeString`. They are a string parameter, and the 30 start-up labels are not generated.
- The widget list (`dashboard-widgets`, script.js:19) is a `JSON.parse` result that nothing else uses. A malformed stored value would make the constructor throw, and that is not modelled.
- The active marks on navigation items (script.js:80-82) and on colour swatches (script.js:678-680) are not modelled. The same goes for filling the settings form (`openSettingsModal`), opening and closing modals, and toast notifications. None of these touches the settings, the store or the sidebar.
- Heatmap HTML, export through `Blob`/`URL`, drag and drop, keyboard shortcuts, `IntersectionObserver` and service-worker registration are browser-only features.
- Realtime.Delta: JavaScript numbers are doubles, and `u * width + low` is rounded before it is floored. The model computes with exact reals, so for some draws its step is one below the browser's. For example, u = 0.09999999999999999 gives -9 here and -8 in doubles. The stated range holds in both.
- Realtime.Tick: the KPIs are unbounded integers, not doubles. The rounding of each step described for Realtime.Delta is not modelled.
- Realtime.Step: double rounding of `base + u * 20 - 10` is not modelled. In doubles a step can reach exactly +10; for example u = 1 - 2^-52 takes 150 to 160. The model's step is always below +10. The [50, 300] bound holds in both.
- Realtime.Walk: built on exact-real steps, so a floored point can differ by one from the browser's. For example, u = 0.04999999999999938 gives 140 here and 141 in doubles.
- Realtime.GenerateRealtimeData: inherits the Realtime.Walk difference. The [50, 300] range, the [140, 160] start and the ±10 jump bound hold for doubles too.
- Realtime.ChartPoint: with exact reals the point lies in [100, 199]. In doubles the draw 1 - 2^-53 rounds `150 + u * 100 - 50` up to 200. Generators that return multiples of 2^-52 cannot produce that draw.
- Realtime.UpdateRealtimeChart: the new point's [100, 199] bound inherits the Realtime.ChartPoint exception. In doubles the draw 1 - 2^-53 appends 200.
- Realtime.FreshTailGrows: "fresh" means in [100, 199], so with doubles the same draw can append a point this lemma does not count as fresh.
- Realtime.FullTurnoverIsFresh: holds for exact reals. In doubles it has the same Realtime.ChartPoint exception.
- Dashboard.SwitchSection: every content section loses `active`, and the model keeps only the target's id as active. It assumes an element named `<id>-section` is itself a content section.
- Dashboard.ApplyTheme: `updateThemeIcon` sets the icon only when the icon element exists. The model assumes it exists.
- Dashboard.Init: the model assumes the page has `.dashboard-container`, `.dashboard-sidebar` and the theme icon element (script.js:46-47, 88-89, 104-105, 163-166). Without the container or the sidebar, `applySettings` throws in its `collapsed` and `hidden` branches (script.js:50-54), and so do `toggleSidebar` (script.js:91) and `toggleMobileSidebar` (script.js:107). Without the icon element, `updateThemeIcon` called from `initThemeSystem` sets nothing (script.js:145, 163-166), while the model always sets the icon. A page missing any of these elements is not modelled.
- A colour swatch's colour is a string parameter. A swatch without a `data-color` attribute, which would store `undefined`, is not modelled.

=== FILE: dashboard.dfy ===
/**
 The dashboard controller's settings state machine: the in-memory settings,
 the store they are persisted in, the page they are shown on and the
 current section. Each user action is a pure transition on that state.

 Chart redraws (`updateChartsTheme`), closing the settings modal, the toast
 notification and the delayed page reload are side effects outside this
 state and are not modelled.
 */
module Dashboard {
  import opened Settings
  import opened View

  const StartSection := "overview"

  datatype Dashboard = Dashboard(settings: Settings, store: Store, view: View, currentSection: string)

  /** The store loads back exactly the in-memory settings. */
  predicate Synced(d: Dashboard) {
    Load(d.store) == d.settings
  }

  /** The constructor and the settings part of `init`: load the settings,
      apply them to the page as served, and set the theme icon. */
  function Init(store: Store, page: View): (d: Dashboard)
    ensures d.settings == Load(store) && d.store == store
    ensures Synced(d) && NonEmpty(d.settings)
    ensures Shows(d.settings, d.view)
    ensures d.view.themeIcon == ThemeIcon(d.settings.theme)
    ensures page.sidebarClasses <= d.view.sidebarClasses && page.containerClasses <= d.view.containerClasses
    ensures d.view == ApplySettings(d.settings, page).(themeIcon := d.view.themeIcon)
    ensures d.view.activeSections == page.activeSections
    ensures d.currentSection == StartSection
  {
    var s := Load(store);
    Dashboard(s, store, ApplySettings(s, page).(themeIcon := ThemeIcon(s.theme)), StartSection)
  }

  /** `applyTheme`: show the theme, update the icon and save every setting. */
  function ApplyTheme(d: Dashboard): (r: Dashboard)
    ensures r.settings == d.settings && r.currentSection == d.currentSection
    ensures r.view.dataTheme == d.settings.theme
    ensures r.view.themeIcon == ThemeIcon(d.settings.theme)
    ensures r.view.sidebarClasses == d.view.sidebarClasses && r.view.containerClasses == d.view.containerClasses
    ensures r.view.primaryColorProp == d.view.primaryColorProp
    ensures r.view.activeSections == d.view.activeSections
    ensures r.store == Save(d.store, d.settings)
    ensures NonEmpty(d.settings) ==> Synced(r)
  {
    d.(view := d.view.(dataTheme := d.settings.theme, themeIcon := ThemeIcon(d.settings.theme)),
       store := Save(d.store, d.settings))
  }

  /** `toggleTheme`: `light` becomes `dark`, anything else becomes `light`. */
  function ToggleTheme(d: Dashboard): (r: Dashboard)
    ensures r.settings.theme == "light" || r.settings.theme == "dark"
    ensures r.settings.theme == "dark" <==> d.settings.theme == "light"
    ensures r.settings == d.settings.(theme := r.settings.theme)
    ensures ThemeKey in r.store && r.store[ThemeKey] == r.settings.theme && r.view.dataTheme == r.settings.theme
    ensures r.view == d.view.(dataTheme := r.settings.theme, themeIcon := ThemeIcon(r.settings.theme))
    ensures r.store == Save(d.store, r.settings)
    ensures r.currentSection == d.currentSection
    ensures NonEmpty(d.settings) ==> Synced(r)
  {
    var theme := if d.settings.theme == "light" then "dark" else "light";
    ApplyTheme(d.(settings := d.settings.(theme := theme)))
  }

  /** Choosing a theme in the settings form's theme list: any value is kept,
      shown and saved at once. */
  function SelectTheme(d: Dashboard, value: string): (r: Dashboard)
    ensures r.settings == d.settings.(theme := value)
    ensures ThemeKey in r.store && r.store[ThemeKey] == value && r.view.dataTheme == value
    ensures r.view == d.view.(dataTheme := value, themeIcon := ThemeIcon(value))
    ensures r.store == Save(d.store, r.settings)
    ensures r.currentSection == d.currentSection
    ensures value != "" && NonEmpty(d.settings) ==> Synced(r)
  {
    ApplyTheme(d.(settings := d.settings.(theme := value)))
  }

  /** `toggleSidebar`: branches on whether the sidebar element carries the
      `collapsed` class, not on the stored mode; then saves. */
  function ToggleSidebar(d: Dashboard): (r: Dashboard)
    ensures CollapsedClass in r.view.sidebarClasses <==> CollapsedClass !in d.view.sidebarClasses
    ensures r.settings.sidebarMode == "collapsed" <==> CollapsedClass in r.view.sidebarClasses
    ensures r.settings.sidebarMode == "collapsed" || r.settings.sidebarMode == DefaultSidebarMode
    ensures r.settings == d.settings.(sidebarMode := r.settings.sidebarMode)
    ensures ContainerCollapsedClass in r.view.containerClasses <==> CollapsedClass in r.view.sidebarClasses
    ensures r.view.sidebarClasses - {CollapsedClass} == d.view.sidebarClasses - {CollapsedClass}
    ensures r.view.containerClasses - {ContainerCollapsedClass} == d.view.containerClasses - {ContainerCollapsedClass}
    ensures r.view == d.view.(sidebarClasses := r.view.sidebarClasses, containerClasses := r.view.containerClasses)
    ensures r.store == Save(d.store, r.settings)
    ensures r.currentSection == d.currentSection
    ensures Coherent(d.view) ==> Coherent(r.view)
    ensures NonEmpty(d.settings) ==> Synced(r)
  {
    var v := d.view;
    var collapsed := CollapsedClass in v.sidebarClasses;
    var v' :=
      if collapsed then
        v.(sidebarClasses := v.sidebarClasses - {CollapsedClass},
           containerClasses := v.containerClasses - {ContainerCollapsedClass})
      else
        v.(sidebarClasses := v.sidebarClasses + {CollapsedClass},
           containerClasses := v.containerClasses + {ContainerCollapsedClass});
    var s := d.settings.(sidebarMode := if collapsed then DefaultSidebarMode else "collapsed");
    d.(settings := s, view := v', store := Save(d.store, s))
  }

  /** `toggleMobileSidebar`: flips the `hidden` class on sidebar and
      container; the settings and the store are left alone. */
  function ToggleMobileSidebar(d: Dashboard): (r: Dashboard)
    ensures HiddenClass in r.view.sidebarClasses <==> HiddenClass !in d.view.sidebarClasses
    ensures ContainerHiddenClass in r.view.containerClasses <==> HiddenClass in r.view.sidebarClasses
    ensures r.view.sidebarClasses - {HiddenClass} == d.view.sidebarClasses - {HiddenClass}
    ensures r.view.containerClasses - {ContainerHiddenClass} == d.view.containerClasses - {ContainerHiddenClass}
    ensures r.view == d.view.(sidebarClasses := r.view.sidebarClasses, containerClasses := r.view.containerClasses)
    ensures r.settings == d.settings && r.store == d.store && r.currentSection == d.currentSection
    ensures Coherent(d.view) ==> Coherent(r.view)
  {
    var v := d.view;
    var v' :=
      if HiddenClass in v.sidebarClasses then
        v.(sidebarClasses := v.sidebarClasses - {HiddenClass},
           containerClasses := v.containerClasses - {ContainerHiddenClass})
      else
        v.(sidebarClasses := v.sidebarClasses + {HiddenClass},
           containerClasses := v.containerClasses + {ContainerHiddenClass});
    d.(view := v')
  }

  /** A click on a colour swatch: the colour is applied to the page but not
      written to the store. */
  function PickColor(d: Dashboard, color: string): (r: Dashboard)
    ensures r.settings == d.settings.(primaryColor := color)
    ensures r.store == d.store
    ensures Shows(r.settings, r.view) && r.view.primaryColorProp == color
    ensures r.view == ApplySettings(r.settings, d.view)
    ensures d.view.sidebarClasses <= r.view.sidebarClasses && d.view.containerClasses <= r.view.containerClasses
    ensures r.view.themeIcon == d.view.themeIcon && r.view.activeSections == d.view.activeSections
    ensures r.currentSection == d.currentSection
  {
    var s := d.settings.(primaryColor := color);
    d.(settings := s, view := ApplySettings(s, d.view))
  }

  /** `saveSettingsFromModal`: theme, sidebar mode and auto-refresh come from
      the form, unvalidated; the colour is whatever is in memory. */
  function SaveSettingsFromModal(d: Dashboard, theme: string, mode: string, autoRefresh: bool): (r: Dashboard)
    ensures r.settings == Settings(theme, d.settings.primaryColor, mode, autoRefresh)
    ensures Shows(r.settings, r.view)
    ensures r.view == ApplySettings(r.settings, d.view)
    ensures d.view.sidebarClasses <= r.view.sidebarClasses && d.view.containerClasses <= r.view.containerClasses
    ensures r.view.themeIcon == d.view.themeIcon && r.view.activeSections == d.view.activeSections
    ensures r.store == Save(d.store, r.settings)
    ensures NonEmpty(r.settings) ==> Synced(r)
    ensures r.currentSection == d.currentSection
  {
    var s := Settings(theme, d.settings.primaryColor, mode, autoRefresh);
    d.(settings := s, view := ApplySettings(s, d.view), store := Save(d.store, s))
  }

  /** `resetSettings`: the default settings, applied and saved. Applying the
      `expanded` mode adds no class, so the sidebar keeps its classes, and the
      theme icon stays as it was until the reload that follows. */
  function ResetSettings(d: Dashboard): (r: Dashboard)
    ensures r.settings == Defaults
    ensures Synced(r)
    ensures r.store.Keys == d.store.Keys + SettingsKeys
    ensures ThemeKey in r.store && r.store[ThemeKey] == DefaultTheme
    ensures ColorKey in r.store && r.store[ColorKey] == DefaultColor
    ensures SidebarKey in r.store && r.store[SidebarKey] == DefaultSidebarMode
    ensures AutoRefreshKey in r.store && r.store[AutoRefreshKey] == "true"
    ensures forall k :: k in d.store && k !in SettingsKeys ==> k in r.store && r.store[k] == d.store[k]
    ensures r.view == d.view.(dataTheme := DefaultTheme, primaryColorProp := DefaultColor)
    ensures r.currentSection == d.currentSection
  {
    d.(settings := Defaults, view := ApplySettings(Defaults, d.view), store := Save(d.store, Defaults))
  }

  /** `switchSection`: every content section loses `active`; the target
      section, when an element `<id>-section` exists on the page, gains it
      and becomes current. */
  function SwitchSection(d: Dashboard, sectionId: string, pageIds: set<string>): (r: Dashboard)
    ensures r.currentSection == sectionId <==> (sectionId + "-section" in pageIds || d.currentSection == sectionId)
    ensures sectionId + "-section" !in pageIds ==> r.currentSection == d.currentSection
    ensures r.view.activeSections <= {sectionId + "-section"}
    ensures sectionId + "-section" in r.view.activeSections <==> sectionId + "-section" in pageIds
    ensures r.settings == d.settings && r.store == d.store
    ensures r.view == d.view.(activeSections := r.view.activeSections)
  {
    var target := sectionId + "-section";
    if target in pageIds then
      d.(view := d.view.(activeSections := {target}), currentSection := sectionId)
    else
      d.(view := d.view.(activeSections := {}))
  }

  /** Toggling the theme twice restores it exactly when it was `light` or
      `dark`; any other theme ends up `dark`. */
  lemma ToggleThemeInvolution(d: Dashboard)
    ensures ToggleTheme(ToggleTheme(d)).settings == d.settings <==>
              d.settings.theme == "light" || d.settings.theme == "dark"
    ensures d.settings.theme != "light" ==> ToggleTheme(ToggleTheme(d)).settings.theme == "dark"
  {
  }

  /** Choosing the same theme twice is choosing it once. */
  lemma SelectThemeIdempotent(d: Dashboard, value: string)
    ensures SelectTheme(SelectTheme(d, value), value) == SelectTheme(d, value)
  {
  }

  /** Toggling the sidebar twice restores the page when its container and
      sidebar classes agree, and leaves the mode matching the class. */
  lemma ToggleSidebarTwice(d: Dashboard)
    requires Coherent(d.view)
    ensures ToggleSidebar(ToggleSidebar(d)).view == d.view
    ensures ToggleSidebar(ToggleSidebar(d)).settings.sidebarMode ==
              (if CollapsedClass in d.view.sidebarClasses then "collapsed" else DefaultSidebarMode)
  {
  }

  /** Toggling the mobile sidebar twice restores the page when its container
      and sidebar classes agree. */
  lemma ToggleMobileSidebarTwice(d: Dashboard)
    requires Coherent(d.view)
    ensures ToggleMobileSidebar(ToggleMobileSidebar(d)) == d
  {
  }

  /** A picked colour is not persisted by itself, but the next theme toggle
      saves every setting and so persists it. */
  lemma PickedColorPersistedByToggleTheme(d: Dashboard, color: string)
    requires Synced(d) && color != ""
    ensures Load(PickColor(d, color).store).primaryColor == d.settings.primaryColor
    ensures !Synced(PickColor(d, color)) <==> color != d.settings.primaryColor
    ensures Load(ToggleTheme(PickColor(d, color)).store).primaryColor == color
  {
  }

  /** After a reset the page reload starts from the defaults, whatever the
      earlier state was. */
  lemma ResetThenReloadIsDefault(d: Dashboard, page: View)
    ensures Init(ResetSettings(d).store, page).settings == Defaults
    ensures CollapsedClass !in page.sidebarClasses && HiddenClass !in page.sidebarClasses ==>
              ShowsExactly(Defaults, Init(ResetSettings(d).store, page).view)
  {
  }

  /** The form keeps any sidebar mode, recognised or not, and a reload reads
      it back. */
  lemma ModalKeepsUnknownMode(d: Dashboard, theme: string, mode: string, autoRefresh: bool, page: View)
    requires mode != ""
    ensures Init(SaveSettingsFromModal(d, theme, mode, autoRefresh).store, page).settings.sidebarMode == mode
  {
  }

  /** Every transition except a colour pick (and a form or theme value that
      is empty) keeps the store in step with the settings. */
  lemma TransitionsKeepSynced(d: Dashboard, sectionId: string, pageIds: set<string>)
    requires Synced(d)
    ensures Synced(ToggleTheme(d)) && Synced(ToggleSidebar(d)) && Synced(ToggleMobileSidebar(d))
    ensures Synced(ResetSettings(d)) && Synced(SwitchSection(d, sectionId, pageIds))
  {
  }
}

=== FILE: realtime.dfy ===
/**
 The simulated live data: the periodic KPI perturbation, the sliding window
 of the real-time chart, and the random walk that seeds that chart.

 Every `Math.random()` draw is a parameter: a real in [0, 1), as the browser
 promises. JavaScript numbers are doubles, which round every product and sum;
 the model computes with unbounded integers and exact reals instead, so a
 floored value can differ by one from what the browser computes for the same
 draw. The bounds on Delta, Tick, Walk and GenerateRealtimeData hold for
 both. Two bounds hold only for exact reals: in doubles, the draw 1 - 2^-52
 takes a Step from 150 to exactly 160, and the draw 1 - 2^-53 makes
 ChartPoint 200.
 */
module Realtime {

  /** A draw of `Math.random()`. */
  type Draw = u: real | 0.0 <= u < 1.0

  function Abs(x: int): (r: int)
    ensures r >= 0 && (r == x || r == -x)
  {
    if x < 0 then -x else x
  }

  // ---------------------------------------------------------------------
  // KPI tick
  // ---------------------------------------------------------------------

  /** The KPI snapshot the counters show. */
  datatype Kpis = Kpis(activeUsers: int, salesCount: int, revenue: int, pageViews: int)

  predicate NonNegative(k: Kpis) {
    k.activeUsers >= 0 && k.salesCount >= 0 && k.revenue >= 0 && k.pageViews >= 0
  }

  /** `Math.floor(Math.random() * width + low)`: the integer increment one
      draw produces, somewhere in [low, low + width - 1]. */
  function Delta(u: Draw, width: int, low: int): (r: int)
    requires width > 0
    ensures low <= r <= low + width - 1
  {
    assert 0.0 <= u * width as real < width as real by {
      assert u * width as real <= 1.0 * width as real - (1.0 - u) * width as real;
    }
    (u * width as real + low as real).Floor
  }

  /** Every step in [low, low + width - 1] comes from some draw: the draw
      (d - low) / width gives exactly d. */
  lemma DeltaCovers(width: int, low: int, d: int)
    requires width > 0 && low <= d <= low + width - 1
    ensures Delta((d - low) as real / width as real, width, low) == d
  {
  }

  /** `after` is `|before + d|` for some integer step d in [lo, hi]: either
      the sum stayed non-negative and after - before is the step, or it went
      negative and was reflected, so -after - before is the step. */
  predicate ReflectedStep(before: int, after: int, lo: int, hi: int) {
    && after >= 0
    && ((lo <= after - before <= hi) || (after > 0 && lo <= -after - before <= hi))
  }

  /** `updateRealtimeData`: each KPI moves by a random integer step, and a
      value that went negative is replaced by its absolute value. */
  function Tick(k: Kpis, u1: Draw, u2: Draw, u3: Draw, u4: Draw): (r: Kpis)
    ensures NonNegative(r)
    ensures ReflectedStep(k.activeUsers, r.activeUsers, -10, 9)
    ensures ReflectedStep(k.salesCount, r.salesCount, 0, 2)
    ensures ReflectedStep(k.revenue, r.revenue, -500, 499)
    ensures ReflectedStep(k.pageViews, r.pageViews, 0, 49)
    ensures r.salesCount >= k.salesCount && r.pageViews >= k.pageViews
  {
    var d1 := Delta(u1, 20, -10);
    var d2 := Delta(u2, 3, 0);
    var d3 := Delta(u3, 1000, -500);
    var d4 := Delta(u4, 50, 0);
    Kpis(Abs(k.activeUsers + d1), Abs(k.salesCount + d2), Abs(k.revenue + d3), Abs(k.pageViews + d4))
  }

  /** Each KPI moves by the step its own draw gives: the draws that
      `DeltaCovers` picks for steps d1..d4 give exactly `|old + d|` per KPI. */
  lemma TickCovers(k: Kpis, d1: int, d2: int, d3: int, d4: int)
    requires -10 <= d1 <= 9 && 0 <= d2 <= 2 && -500 <= d3 <= 499 && 0 <= d4 <= 49
    ensures Tick(k, (d1 + 10) as real / 20.0, d2 as real / 3.0, (d3 + 500) as real / 1000.0, d4 as real / 50.0)
         == Kpis(Abs(k.activeUsers + d1), Abs(k.salesCount + d2), Abs(k.revenue + d3), Abs(k.pageViews + d4))
  {
    var u1: Draw := (d1 + 10) as real / 20.0;
    var u2: Draw := d2 as real / 3.0;
    var u3: Draw := (d3 + 500) as real / 1000.0;
    var u4: Draw := d4 as real / 50.0;
    DeltaCovers(20, -10, d1);
    DeltaCovers(3, 0, d2);
    DeltaCovers(1000, -500, d3);
    DeltaCovers(50, 0, d4);
    assert Delta(u1, 20, -10) == d1 && Delta(u2, 3, 0) == d2;
    assert Delta(u3, 1000, -500) == d3 && Delta(u4, 50, 0) == d4;
  }

  /** From a non-negative snapshot no KPI moves by more than its step: the
      reflection at zero never overshoots. */
  lemma TickStepBounded(k: Kpis, u1: Draw, u2: Draw, u3: Draw, u4: Draw)
    requires NonNegative(k)
    ensures var r := Tick(k, u1, u2, u3, u4);
            && -10 <= r.activeUsers - k.activeUsers <= 10
            && 0 <= r.salesCount - k.salesCount <= 2
            && -500 <= r.revenue - k.revenue <= 500
            && 0 <= r.pageViews - k.pageViews <= 49
  {
  }

  /** The 30-second timer: a run of ticks, one draw quadruple per tick. */
  function Ticks(k: Kpis, draws: seq<(Draw, Draw, Draw, Draw)>): (r: Kpis)
    ensures |draws| == 0 ==> r == k
    ensures |draws| > 0 ==> NonNegative(r)
    decreases |draws|
  {
    if |draws| == 0 then k
    else
      var (u1, u2, u3, u4) := draws[0];
      Ticks(Tick(k, u1, u2, u3, u4), draws[1..])
  }

  /** However many ticks run, sales and page views never fall below where
      they started, and after at least one tick every KPI is non-negative. */
  lemma {:induction false} TicksMonotone(k: Kpis, draws: seq<(Draw, Draw, Draw, Draw)>)
    ensures Ticks(k, draws).salesCount >= k.salesCount
    ensures Ticks(k, draws).pageViews >= k.pageViews
    ensures NonNegative(k) || |draws| > 0 ==> NonNegative(Ticks(k, draws))
    decreases |draws|
  {
    if |draws| > 0 {
      var (u1, u2, u3, u4) := draws[0];
      TicksMonotone(Tick(k, u1, u2, u3, u4), draws[1..]);
    }
  }

  // ---------------------------------------------------------------------
  // Real-time chart window
  // ---------------------------------------------------------------------

  /** `Array.prototype.shift` for its effect on the array: drops the first
      element, and leaves an empty array alone. */
  function Shift<T>(s: seq<T>): (r: seq<T>)
    ensures |s| > 0 ==> r == s[1..]
    ensures |s| == 0 ==> r == []
  {
    if |s| == 0 then [] else s[1..]
  }

  /** The point a chart tick appends: `Math.floor(150 + u * 100 - 50)`. */
  function ChartPoint(u: Draw): (r: int)
    ensures 100 <= r <= 199
  {
    (150.0 + u * 100.0 - 50.0).Floor
  }

  /** Every point in [100, 199] comes from some draw: (p - 100) / 100 gives
      exactly p. */
  lemma ChartPointCovers(p: int)
    requires 100 <= p <= 199
    ensures ChartPoint((p - 100) as real / 100.0) == p
  {
  }

  datatype Window = Window(data: seq<int>, labels: seq<string>)

  /** `r` is `s` after one sliding step that brings in `x`: an empty series
      becomes `[x]`; otherwise the length is kept, the oldest entry is gone,
      and `x` is the newest. */
  predicate Slid<T(==)>(s: seq<T>, x: T, r: seq<T>) {
    if |s| == 0 then r == [x]
    else |r| == |s| && r[..|r| - 1] == s[1..] && r[|r| - 1] == x
  }

  /** One sliding step on a single series: the oldest entry leaves, `x`
      arrives at the end. */
  function ShiftPush<T(==)>(s: seq<T>, x: T): (r: seq<T>)
    ensures Slid(s, x, r)
  {
    var kept := Shift(s);
    var r := kept + [x];
    assert r[..|r| - 1] == kept;
    r
  }

  /** The shift-then-push on data and labels, for a given new point. */
  function Push(w: Window, point: int, now: string): (r: Window)
    ensures Slid(w.data, point, r.data)
    ensures Slid(w.labels, now, r.labels)
    ensures |w.data| == |w.labels| ==> |r.data| == |r.labels|
  {
    Window(ShiftPush(w.data, point), ShiftPush(w.labels, now))
  }

  /** Pushing an in-range point onto an in-range window keeps it in range. */
  lemma PushInRange(w: Window, point: int, now: string)
    requires InWalkRange(w.data) && 50 <= point <= 300
    ensures InWalkRange(Push(w, point, now).data)
  {
    var r := Push(w, point, now).data;
    forall i | 0 <= i < |r|
      ensures 50 <= r[i] <= 300
    {
      if i < |r| - 1 {
        assert r[i] == r[..|r| - 1][i] == w.data[1..][i];
      }
    }
  }

  /** `updateRealtimeChart`: shift the oldest point and label out, push one
      fresh point and the current time's label. */
  function UpdateRealtimeChart(w: Window, u: Draw, now: string): (r: Window)
    ensures |w.data| > 0 ==> |r.data| == |w.data|
    ensures |w.labels| > 0 ==> |r.labels| == |w.labels|
    ensures |w.data| > 0 ==> r.data[..|r.data| - 1] == w.data[1..]
    ensures |r.data| > 0 && 100 <= r.data[|r.data| - 1] <= 199
    ensures |w.data| == 0 ==> r.data == [ChartPoint(u)]
    ensures |r.labels| > 0 && r.labels[|r.labels| - 1] == now
    ensures |w.labels| > 0 ==> r.labels[..|r.labels| - 1] == w.labels[1..]
    ensures |w.labels| == 0 ==> r.labels == [now]
    ensures |w.data| == |w.labels| ==> |r.data| == |r.labels|
  {
    Push(w, ChartPoint(u), now)
  }

  /** Every point lies in the range the seed walk and fresh points share. */
  predicate InWalkRange(d: seq<int>) {
    forall i :: 0 <= i < |d| ==> 50 <= d[i] <= 300
  }

  /** Chart ticks keep a full window full: after any number of ticks the
      window has its length, its data stay in the bounds the series and the
      fresh points share, and data and labels stay aligned. */
  function UpdateMany(w: Window, us: seq<Draw>, nows: seq<string>): (r: Window)
    requires |us| == |nows|
    ensures |w.data| > 0 ==> |r.data| == |w.data|
    ensures |w.labels| > 0 ==> |r.labels| == |w.labels|
    ensures |w.data| == |w.labels| ==> |r.data| == |r.labels|
    ensures InWalkRange(w.data) ==> InWalkRange(r.data)
    decreases |us|
  {
    if |us| == 0 then w
    else
      var next := Push(w, ChartPoint(us[0]), nows[0]);
      assert InWalkRange(w.data) ==> InWalkRange(next.data) by {
        if InWalkRange(w.data) {
          PushInRange(w, ChartPoint(us[0]), nows[0]);
        }
      }
      UpdateMany(next, us[1..], nows[1..])
  }

  /** A point the chart tick appends, as opposed to one from the seed walk. */
  predicate Fresh(x: int) {
    100 <= x <= 199
  }

  /** The newest k points of `d` are fresh. */
  predicate FreshTail(d: seq<int>, k: int) {
    forall i :: 0 <= i < |d| && |d| - k <= i ==> Fresh(d[i])
  }

  /** If the newest m points of a non-empty window are fresh, then after more
      ticks the newest m + (number of ticks) points are, up to the whole
      window. */
  lemma {:induction false} FreshTailGrows(w: Window, us: seq<Draw>, nows: seq<string>, m: nat)
    requires |us| == |nows|
    requires 0 < |w.data| && m <= |w.data|
    requires FreshTail(w.data, m)
    ensures FreshTail(UpdateMany(w, us, nows).data, if m + |us| < |w.data| then m + |us| else |w.data|)
    decreases |us|
  {
    if |us| > 0 {
      var n := |w.data|;
      var w' := UpdateRealtimeChart(w, us[0], nows[0]);
      var m' := if m + 1 < n then m + 1 else n;
      forall i | n - m' <= i < n
        ensures Fresh(w'.data[i])
      {
        if i < n - 1 {
          assert w'.data[i] == w.data[i + 1];
        }
      }
      FreshTailGrows(w', us[1..], nows[1..], m');
    }
  }

  /** A window of n points, after at least n ticks, holds only fresh points. */
  lemma FullTurnoverIsFresh(w: Window, us: seq<Draw>, nows: seq<string>)
    requires |us| == |nows| && |us| >= |w.data| > 0
    ensures var r := UpdateMany(w, us, nows);
            forall i :: 0 <= i < |r.data| ==> Fresh(r.data[i])
  {
    FreshTailGrows(w, us, nows, 0);
  }

  // ---------------------------------------------------------------------
  // Random walk seeding the chart
  // ---------------------------------------------------------------------

  /** Neighbouring points of the walk differ by at most ten. */
  predicate Close(a: int, b: int) {
    -10 <= b - a <= 10
  }

  const WalkStart := 150.0
  const WalkLow := 50.0
  const WalkHigh := 300.0

  /** `Math.max(50, Math.min(300, x))`. */
  function Clamp(x: real): (r: real)
    ensures WalkLow <= r <= WalkHigh
    ensures WalkLow <= x <= WalkHigh ==> r == x
  {
    if x > WalkHigh then WalkHigh else if x < WalkLow then WalkLow else x
  }

  /** Clamping is monotone; with the range and identity clauses this pins
      the saturation values: above 300 gives 300, below 50 gives 50. */
  lemma ClampMonotone(x: real, y: real)
    requires x <= y
    ensures Clamp(x) <= Clamp(y)
  {
  }

  /** One step of the walk: move by `u * 20 - 10`, in [-10, 10), then clamp. */
  function Step(base: real, u: Draw): (r: real)
    requires WalkLow <= base <= WalkHigh
    ensures WalkLow <= r <= WalkHigh
    ensures -10.0 <= r - base < 10.0
  {
    Clamp(base + u * 20.0 - 10.0)
  }

  /** Every in-range target within [-10, 10) of the base is reached by some
      draw: (t - base + 10) / 20 moves the base exactly to t. */
  lemma StepCovers(base: real, t: real)
    requires WalkLow <= base <= WalkHigh && WalkLow <= t <= WalkHigh
    requires base - 10.0 <= t < base + 10.0
    ensures Step(base, (t - base + 10.0) / 20.0) == t
  {
  }

  /** The walk as a recursive reference: the floored bases visited from
      `base` under the draws `us`. */
  function Walk(base: real, us: seq<Draw>): (r: seq<int>)
    requires WalkLow <= base <= WalkHigh
    ensures |r| == |us|
    ensures forall i :: 0 <= i < |r| ==> 50 <= r[i] <= 300
    ensures |r| > 0 ==> Close(base.Floor, r[0])
    ensures forall i :: 0 <= i < |r| - 1 ==> Close(r[i], r[i + 1])
    decreases |us|
  {
    if |us| == 0 then []
    else
      var b := Step(base, us[0]);
      var rest := Walk(b, us[1..]);
      FloorsClose(base, b);
      var r := [b.Floor] + rest;
      assert forall i :: 0 <= i < |r| ==> 50 <= r[i] <= 300 by {
        forall i | 0 <= i < |r|
          ensures 50 <= r[i] <= 300
        {
          if i > 0 {
            assert r[i] == rest[i - 1];
          }
        }
      }
      assert forall i :: 0 <= i < |r| - 1 ==> Close(r[i], r[i + 1]) by {
        forall i | 0 <= i < |r| - 1
          ensures Close(r[i], r[i + 1])
        {
          assert r[i + 1] == rest[i];
          if i > 0 {
            assert r[i] == rest[i - 1];
          }
        }
      }
      r
  }

  /** Reals at most ten apart have floors at most ten apart; floors keep the
      walk's range. */
  lemma FloorsClose(a: real, b: real)
    requires WalkLow <= a <= WalkHigh && WalkLow <= b <= WalkHigh
    requires -10.0 <= b - a <= 10.0
    ensures Close(a.Floor, b.Floor)
    ensures 50 <= b.Floor <= 300
  {
  }

  /** One step of the walk: the first point is the floored first step, and
      the rest of the walk starts from there. */
  lemma WalkUnfold(base: real, us: seq<Draw>)
    requires WalkLow <= base <= WalkHigh
    requires |us| > 0
    ensures Walk(base, us) == [Step(base, us[0]).Floor] + Walk(Step(base, us[0]), us[1..])
  {
  }

  /** Taking one step of the walk moves its first point onto the prefix
      already produced, leaving the whole walk unchanged. */
  lemma WalkExtend(prefix: seq<int>, base: real, us: seq<Draw>, whole: seq<int>)
    requires WalkLow <= base <= WalkHigh
    requires |us| > 0
    requires prefix + Walk(base, us) == whole
    ensures prefix + [Step(base, us[0]).Floor] + Walk(Step(base, us[0]), us[1..]) == whole
  {
    WalkUnfold(base, us);
    assert prefix + ([Step(base, us[0]).Floor] + Walk(Step(base, us[0]), us[1..])) == whole;
  }

  /** The walk from 150 stays in [50, 300], opens within ten of 150, and
      moves by at most ten per point. */
  lemma WalkFromStart(us: seq<Draw>)
    ensures var r := Walk(WalkStart, us);
            && (forall i :: 0 <= i < |r| ==> 50 <= r[i] <= 300)
            && (|r| > 0 ==> 140 <= r[0] <= 160)
            && (forall i :: 0 <= i < |r| - 1 ==> Close(r[i], r[i + 1]))
  {
  }

  /** `generateRealtimeData(points)`: a random walk of `points` values
      starting at 150, clamped to [50, 300] and floored; a non-positive count
      gives no points. */
  method GenerateRealtimeData(points: int, randoms: seq<Draw>) returns (data: seq<int>)
    requires points <= |randoms|
    ensures |data| == if points > 0 then points else 0
    ensures data == Walk(WalkStart, randoms[..|data|])
    ensures forall i :: 0 <= i < |data| ==> 50 <= data[i] <= 300
    ensures |data| > 0 ==> 140 <= data[0] <= 160
    ensures forall i :: 0 <= i < |data| - 1 ==> Close(data[i], data[i + 1])
  {
    var n := if points > 0 then points else 0;
    var base := WalkStart;
    data := [];
    var i := 0;
    while i < n
      invariant 0 <= i <= n
      invariant WalkLow <= base <= WalkHigh
      invariant data + Walk(base, randoms[i..n]) == Walk(WalkStart, randoms[..n])
    {
      ghost var rest := randoms[i..n];
      assert rest[1..] == randoms[i + 1..n];
      WalkExtend(data, base, rest, Walk(WalkStart, randoms[..n]));
      base := Step(base, randoms[i]);
      data := data + [base.Floor];
      i := i + 1;
    }
    assert randoms[i..n] == [];
    WalkFromStart(randoms[..n]);
  }
}

=== FILE: settings.dfy ===
/**
 The persisted dashboard settings and their round trip through the browser's
 key-value store (`localStorage`).

 The store is a plain map from key to string: `getItem` of a missing key
 yields nothing, and `setItem` stringifies its value. Loading follows the
 JavaScript idiom `stored || fallback`, under which both a missing value and
 the empty string fall back to the default.
 */
module Settings {

  type Store = map<string, string>

  datatype Option<T> = None | Some(value: T)

  /* The four fixed keys the settings live under. */
  const ThemeKey := "dashboard-theme"
  const ColorKey := "dashboard-color"
  const SidebarKey := "sidebar-mode"
  const AutoRefreshKey := "auto-refresh"

  const SettingsKeys: set<string> := {ThemeKey, ColorKey, SidebarKey, AutoRefreshKey}

  const DefaultTheme := "light"
  const DefaultColor := "#667eea"
  const DefaultSidebarMode := "expanded"

  /** The in-memory settings record. No field is validated: any string read
      from the store or chosen in the settings form is kept as it is. */
  datatype Settings = Settings(theme: string, primaryColor: string, sidebarMode: string, autoRefresh: bool)

  const Defaults := Settings(DefaultTheme, DefaultColor, DefaultSidebarMode, true)

  /** True when every string field would survive `stored || fallback`. */
  predicate NonEmpty(s: Settings) {
    s.theme != "" && s.primaryColor != "" && s.sidebarMode != ""
  }

  /** `localStorage.getItem(key)`: the stored string, or nothing. */
  function GetItem(store: Store, key: string): (r: Option<string>)
    ensures r.Some? <==> key in store
    ensures r.Some? ==> r.value == store[key]
  {
    if key in store then Some(store[key]) else None
  }

  /** `stored || fallback` on a string: nothing and "" are both falsy. */
  function OrDefault(stored: Option<string>, fallback: string): (r: string)
    ensures stored.Some? && stored.value != "" ==> r == stored.value
    ensures stored.None? || stored.value == "" ==> r == fallback
  {
    match stored
    case None => fallback
    case Some(v) => if v == "" then fallback else v
  }

  /** `String(b)`, the text `setItem` stores for a boolean. */
  function BoolText(b: bool): (r: string)
    ensures r != ""
    ensures r == "false" <==> !b
  {
    if b then "true" else "false"
  }

  /** The settings the constructor reads from the store. */
  function Load(store: Store): (s: Settings)
    ensures NonEmpty(s)
    ensures ThemeKey in store && store[ThemeKey] != "" ==> s.theme == store[ThemeKey]
    ensures ThemeKey !in store || store[ThemeKey] == "" ==> s.theme == DefaultTheme
    ensures ColorKey in store && store[ColorKey] != "" ==> s.primaryColor == store[ColorKey]
    ensures ColorKey !in store || store[ColorKey] == "" ==> s.primaryColor == DefaultColor
    ensures SidebarKey in store && store[SidebarKey] != "" ==> s.sidebarMode == store[SidebarKey]
    ensures SidebarKey !in store || store[SidebarKey] == "" ==> s.sidebarMode == DefaultSidebarMode
    ensures !s.autoRefresh <==> AutoRefreshKey in store && store[AutoRefreshKey] == "false"
  {
    Settings(
      OrDefault(GetItem(store, ThemeKey), DefaultTheme),
      OrDefault(GetItem(store, ColorKey), DefaultColor),
      OrDefault(GetItem(store, SidebarKey), DefaultSidebarMode),
      GetItem(store, AutoRefreshKey) != Some("false"))
  }

  /** `saveSettings`: the four keys are written, every other key is kept. */
  function Save(store: Store, s: Settings): (r: Store)
    ensures r.Keys == store.Keys + SettingsKeys
    ensures forall k :: k in store && k !in SettingsKeys ==> r[k] == store[k]
    ensures ThemeKey in r && ColorKey in r && SidebarKey in r && AutoRefreshKey in r
    ensures r[ThemeKey] == s.theme && r[ColorKey] == s.primaryColor
    ensures r[SidebarKey] == s.sidebarMode
    ensures r[AutoRefreshKey] == "false" <==> !s.autoRefresh
    ensures NonEmpty(s) ==> Load(r) == s
  {
    store[ThemeKey := s.theme]
         [ColorKey := s.primaryColor]
         [SidebarKey := s.sidebarMode]
         [AutoRefreshKey := BoolText(s.autoRefresh)]
  }

  /** Saving and then loading gives the settings back, as long as no string
      field is empty. */
  lemma LoadSaveRoundTrip(store: Store, s: Settings)
    requires NonEmpty(s)
    ensures Load(Save(store, s)) == s
  {
  }

  /** The round trip is exact precisely for the non-empty settings: an empty
      field comes back as its default. */
  lemma LoadSaveExactIff(store: Store, s: Settings)
    ensures Load(Save(store, s)) == s <==> NonEmpty(s)
    ensures s.theme == "" ==> Load(Save(store, s)).theme == DefaultTheme
    ensures s.primaryColor == "" ==> Load(Save(store, s)).primaryColor == DefaultColor
    ensures s.sidebarMode == "" ==> Load(Save(store, s)).sidebarMode == DefaultSidebarMode
  {
  }

  /** Whatever the store holds, saving what was loaded and loading again is
      stable: loaded settings are never empty. */
  lemma SaveLoadedIsStable(store: Store)
    ensures Load(Save(store, Load(store))) == Load(store)
  {
  }

  /** Only the last save matters, and saving twice is saving once. */
  lemma SaveOverwrites(store: Store, s1: Settings, s2: Settings)
    ensures Save(Save(store, s1), s2) == Save(store, s2)
    ensures Save(Save(store, s2), s2) == Save(store, s2)
  {
  }

  /** An empty store loads the default settings. */
  lemma LoadEmptyIsDefaults()
    ensures Load(map[]) == Defaults
  {
  }

  /** A store holding a dark theme and a collapsed sidebar, with no colour and
      no auto-refresh entry, loads as dark/collapsed with the default colour
      and auto-refresh on. */
  lemma LoadPartialStore()
    ensures Load(map[ThemeKey := "dark", SidebarKey := "collapsed"])
         == Settings("dark", DefaultColor, "collapsed", true)
  {
  }

  /** Auto-refresh is read leniently: any stored text other than "false",
      including "no", "0" or "", reads as on. */
  lemma AutoRefreshLenient(store: Store, text: string)
    ensures Load(store[AutoRefreshKey := text]).autoRefresh <==> text != "false"
  {
  }
}

=== FILE: view.dfy ===
/**
 The part of the page the settings drive: the `data-theme` attribute and the
 `--primary-color` custom property on the document root, the theme button's
 icon class, and the class lists of the dashboard container and of the
 sidebar. The ids of the content sections currently marked active are kept
 here too, since section switching is a class change on the same page.
 */
module View {
  import opened Settings

  const CollapsedClass := "collapsed"
  const HiddenClass := "hidden"
  const ContainerCollapsedClass := "sidebar-collapsed"
  const ContainerHiddenClass := "sidebar-hidden"

  const MoonIcon := "fas fa-moon"
  const SunIcon := "fas fa-sun"

  datatype View = View(
    dataTheme: string,
    primaryColorProp: string,
    themeIcon: string,
    containerClasses: set<string>,
    sidebarClasses: set<string>,
    activeSections: set<string>)

  /** The container's sidebar classes mirror the sidebar's own classes. */
  predicate Coherent(v: View) {
    && (CollapsedClass in v.sidebarClasses <==> ContainerCollapsedClass in v.containerClasses)
    && (HiddenClass in v.sidebarClasses <==> ContainerHiddenClass in v.containerClasses)
  }

  /** The root attributes show `s`, and the sidebar carries the class its
      mode asks for. Nothing is said about classes a mode does not ask for. */
  predicate Shows(s: Settings, v: View) {
    && v.dataTheme == s.theme
    && v.primaryColorProp == s.primaryColor
    && (s.sidebarMode == "collapsed" ==> CollapsedClass in v.sidebarClasses && ContainerCollapsedClass in v.containerClasses)
    && (s.sidebarMode == "hidden" ==> HiddenClass in v.sidebarClasses && ContainerHiddenClass in v.containerClasses)
  }

  /** The sidebar carries exactly the class its mode asks for, as the
      `expanded` → no class, `collapsed` → "collapsed", `hidden` → "hidden"
      reading of the mode would have it. */
  predicate ShowsExactly(s: Settings, v: View) {
    && Shows(s, v)
    && (CollapsedClass in v.sidebarClasses <==> s.sidebarMode == "collapsed")
    && (HiddenClass in v.sidebarClasses <==> s.sidebarMode == "hidden")
  }

  /** `applySettings`: sets the theme attribute and colour property, and adds
      the class for a collapsed or hidden sidebar. It never removes a class. */
  function ApplySettings(s: Settings, v: View): (r: View)
    ensures Shows(s, r)
    ensures r.themeIcon == v.themeIcon && r.activeSections == v.activeSections
    ensures v.sidebarClasses <= r.sidebarClasses && v.containerClasses <= r.containerClasses
    ensures forall c :: c in r.sidebarClasses && c !in v.sidebarClasses ==>
              (c == CollapsedClass && s.sidebarMode == "collapsed") || (c == HiddenClass && s.sidebarMode == "hidden")
    ensures forall c :: c in r.containerClasses && c !in v.containerClasses ==>
              (c == ContainerCollapsedClass && s.sidebarMode == "collapsed") || (c == ContainerHiddenClass && s.sidebarMode == "hidden")
    ensures Coherent(v) ==> Coherent(r)
  {
    var v' := v.(dataTheme := s.theme, primaryColorProp := s.primaryColor);
    if s.sidebarMode == "collapsed" then
      v'.(containerClasses := v.containerClasses + {ContainerCollapsedClass},
          sidebarClasses := v.sidebarClasses + {CollapsedClass})
    else if s.sidebarMode == "hidden" then
      v'.(containerClasses := v.containerClasses + {ContainerHiddenClass},
          sidebarClasses := v.sidebarClasses + {HiddenClass})
    else
      v'
  }

  /** Applying the same settings twice is applying them once. */
  lemma ApplyIdempotent(s: Settings, v: View)
    ensures ApplySettings(s, ApplySettings(s, v)) == ApplySettings(s, v)
  {
  }

  /** A later apply keeps every class an earlier one added: the class sets
      only grow, so the view after two applies shows the second settings'
      attributes and both settings' classes. */
  lemma ApplyAccumulates(s1: Settings, s2: Settings, v: View)
    ensures var r := ApplySettings(s2, ApplySettings(s1, v));
            Shows(s2, r) && r.sidebarClasses >= ApplySettings(s1, v).sidebarClasses
    ensures var r := ApplySettings(s2, ApplySettings(s1, v));
            s1.sidebarMode == "collapsed" ==> CollapsedClass in r.sidebarClasses
  {
  }

  /** On a page whose sidebar carries no mode class (a fresh load), applying
      settings shows them exactly. */
  lemma ApplyOnCleanViewShowsExactly(s: Settings, v: View)
    requires CollapsedClass !in v.sidebarClasses && HiddenClass !in v.sidebarClasses
    ensures ShowsExactly(s, ApplySettings(s, v))
  {
  }

  /** Applying `expanded` after `collapsed` leaves the sidebar collapsed on
      screen while the settings say expanded: the apply shows `expanded`
      exactly only if the sidebar was not collapsed before. */
  lemma ExpandedDoesNotClearCollapsed(s: Settings, v: View)
    requires s.sidebarMode == DefaultSidebarMode
    ensures ShowsExactly(s, ApplySettings(s, v)) <==>
              CollapsedClass !in v.sidebarClasses && HiddenClass !in v.sidebarClasses
  {
  }

  /** `updateThemeIcon`: a moon while the theme is light, a sun otherwise. */
  function ThemeIcon(theme: string): (r: string)
    ensures r == MoonIcon <==> theme == "light"
    ensures r == MoonIcon || r == SunIcon
  {
    if theme == "light" then MoonIcon else SunIcon
  }
}
